=== FILE: README.md ===
# Signal-to-order reconciliation, modelled in Dafny

The trading script reads daily trading signals (`Ticker`, `Date`,
`PredictedSignal`) and reconciles them with the brokerage account's open
positions. It keeps only the rows dated yesterday. When there are none it stops.
Otherwise it builds a lookup table of the open positions once and then walks
the rows in order:

- signal 1 for a ticker that is not a key of the table places a market BUY of 10 shares;
- signal 0 for a ticker that is a key places a market SELL of the absolute held quantity;
- anything else places nothing.

This project models that rule as pure functions over immutable values and
proves its case table, its ordering and independence properties, and
convergence. Convergence means that a second run, after the first run's
orders have filled, places nothing. The script's entry point really does run
the rule twice in one process.

Files:

- `wrappers.dfy`: module `Wrappers`, the `Option` type used for "one order or none".
- `signals.dfy`: module `Signals`, the parsed CSV row and the selection of one day's rows.
- `positions.dfy`: module `Positions`, the brokerage's positions and the lookup table built from them.
- `reconcile.dfy`: module `Reconcile`, the per-row decision, the decision pass, one whole run,
  and the loop-based `RunTradeOnSignals` that follows the script's statement order.
- `convergence.dfy`: module `Convergence`, order filling, convergence of a second run,
  two counterexamples showing that neither of its two conditions can simply be dropped,
  and two examples showing that the conditions are sufficient but not necessary.

Dates are day ordinals, so "yesterday" is `today - 1`. The run's date is a
parameter. Orders are returned as `Intent` values instead of being submitted.
The inputs are immutable values, so the decision step cannot change the rows
or the positions. Only the returned outcome differs between runs.

In three places the code does something other than a first reading of the rule suggests. The model follows the code:

- One might expect one decision per distinct ticker. The code decides once per row, so
  duplicate rows give duplicate orders (`DuplicateRowsDuplicateIntents`).
- One might expect every order quantity to be positive. The code sells `abs(qty)`, which is 0
  for a zero-quantity position, so `Intent.qty` is a `nat`.
- One might expect one position per symbol. The code builds it from the brokerage's
  list with a dictionary comprehension, where a repeated symbol keeps its last entry
  (`Positions.SnapshotLastWins`).

## Model

| member | source | states |
|---|---|---|
| Signals.FilterDay | alpaca_live_trading.py:27 | the selection is no longer than the input and every row it keeps is dated the given day |
| Signals.FilterDayCounts | alpaca_live_trading.py:27 | every kept row is dated the given day; each row dated that day is kept exactly as many times as it occurs, and no other row is kept |
| Signals.FilterDayAppend | alpaca_live_trading.py:27 | selecting from a concatenation concatenates the selections, so the selection keeps row order |
| Signals.OtherDaysIgnored | alpaca_live_trading.py:24-27 | a row dated any other day, inserted anywhere, leaves the selection unchanged |
| Signals.FilterDayEmpty | alpaca_live_trading.py:27-29 | the selection is empty exactly when no row is dated that day |
| Positions.Snapshot | alpaca_live_trading.py:34 | in the table built from a non-empty list, the last entry's symbol is a key and maps to that entry's quantity |
| Positions.SnapshotLastWins | alpaca_live_trading.py:34 | the lookup table's keys are exactly the reported symbols, and each maps to the quantity of that symbol's last report |
| Reconcile.Abs | alpaca_live_trading.py:53 | the SELL size is the non-negative one of the held quantity and its negation |
| Reconcile.Decide | alpaca_live_trading.py:36-61 | signal 1 and ticker not a key gives exactly BUY 10 of that ticker; signal 0 and ticker a key gives exactly SELL of the absolute held quantity; every other case, including signals other than 0 and 1, gives nothing |
| Reconcile.DecideAll | alpaca_live_trading.py:36-61 | a pass over the rows emits at most one intent per row |
| Reconcile.DecideAllAppend | alpaca_live_trading.py:34-39 | the rows are judged against one snapshot that is never updated, so the pass over a concatenation is the concatenation of the passes |
| Reconcile.IntentsComeFromRows | alpaca_live_trading.py:36-61 | every emitted intent is the decision of some row |
| Reconcile.DecideAllSplit | alpaca_live_trading.py:36-61 | row i contributes exactly its own decision, placed after the intents of the earlier rows and before those of the later rows |
| Reconcile.DuplicateRowsDuplicateIntents | alpaca_live_trading.py:34-39 | a row given twice yields its intent twice, in place |
| Reconcile.DecideAllEmpty | alpaca_live_trading.py:36-61 | the pass emits nothing exactly when every row's decision is to do nothing |
| Reconcile.ScenarioBuy | alpaca_live_trading.py:41-49 | on day 10, a day-9 signal-1 row for an unheld AAPL gives exactly BUY 10 AAPL |
| Reconcile.ScenarioSell | alpaca_live_trading.py:52-60 | on day 10, a day-9 signal-0 row for AAPL held at 15 gives exactly SELL 15 AAPL |
| Reconcile.ScenarioAlreadyHeld | alpaca_live_trading.py:36-61 | on day 10, a day-9 signal-1 row for AAPL held at 5 gives no order |
| Reconcile.ScenarioNoSignals | alpaca_live_trading.py:24-31 | on day 10, a row dated day 8 alone makes the run stop for day 9 |
| Reconcile.RunBuysUnheld | alpaca_live_trading.py:24-49 | a row dated yesterday with signal 1 whose ticker is not a key of the positions table puts BUY 10 of that ticker into the run's orders |
| Reconcile.RunSellsHeld | alpaca_live_trading.py:24-60 | a row dated yesterday with signal 0 whose ticker is a key of the positions table puts a SELL of the absolute held quantity into the run's orders |
| Reconcile.RunIntentsComeFromYesterday | alpaca_live_trading.py:24-61 | every order of a run is the decision, against the positions table, of some row dated yesterday |
| Reconcile.TradeOnSignals | alpaca_live_trading.py:22-61 | a run stops with "no signals for yesterday" exactly when no row is dated today - 1; otherwise it emits at most one intent per selected row |
| Reconcile.OtherDaysNeverMatter | alpaca_live_trading.py:24-27 | a row dated anything but yesterday never changes a run's outcome |
| Reconcile.NoSignalsIgnoresPositions | alpaca_live_trading.py:29-34 | when no row is dated yesterday, the outcome is the stop, whatever the positions are |
| Reconcile.SelectDay | alpaca_live_trading.py:27 | the selection loop computes exactly the day's selection |
| Reconcile.BuildSnapshot | alpaca_live_trading.py:34 | the insertion loop builds exactly the last-report-wins lookup table |
| Reconcile.DecideRows | alpaca_live_trading.py:36-61 | the row loop emits exactly the per-row decisions in row order |
| Reconcile.RunTradeOnSignals | alpaca_live_trading.py:22-61 | the script's statement order (select, stop if empty, then read positions, then decide) computes the run's outcome |
| Convergence.Fill | alpaca_live_trading.py:43-60 | a filled BUY adds its shares to the ticker, a filled SELL subtracts them, a position at zero is no longer held, and other tickers are untouched |
| Convergence.DecideLocal | alpaca_live_trading.py:39 | a row's decision depends on the positions only through its own ticker's key and quantity |
| Convergence.FillSettlesRow | alpaca_live_trading.py:41-60 | after its own intent fills, a row finds its ticker held exactly when its signal is 1, provided the position was not short, and decides nothing the next time |
| Convergence.RowSettled | alpaca_live_trading.py:36-61 | with distinct tickers and none of the rows' tickers held short, each row decides nothing against the holdings its run produced |
| Convergence.DecideAllConverges | alpaca_live_trading.py:36-61 | with distinct tickers and none of the rows' tickers held short, re-running the pass after its intents fill emits nothing |
| Convergence.SecondRunIsQuiet | alpaca_live_trading.py:63-68 | given the same rows and the same day, no ticker twice among yesterday's rows and none of their tickers held short before the first run: the entry point's second run stops if the first stopped, and otherwise emits no order once the first run's orders have filled |
| Convergence.DuplicateTickerOscillates | alpaca_live_trading.py:41-60 | with a BUY row and a SELL row for one ticker the second run sells what the first bought, so the distinct-ticker condition cannot simply be dropped |
| Convergence.ShortPositionGrows | alpaca_live_trading.py:52-60 | selling the absolute quantity of a short position of -5 leaves -10 and sells again, so the condition that no row's ticker is held short cannot simply be dropped |
| Convergence.ConvergesBeyondConditions | alpaca_live_trading.py:36-61 | two agreeing signal-1 rows for one ticker buy 20 shares and then settle, and a short position in a ticker no row names does not prevent settling, so the conditions are not necessary |

## Left out

- Fetching the CSV over HTTP and parsing it, including the month/day/year dates (alpaca_live_trading.py:16-20): network and library calls, so rows arrive already parsed.
- Reading the wall clock (alpaca_live_trading.py:24): `today` is a parameter.
- Calendar arithmetic: dates are integer day ordinals, so month and year boundaries are not modelled.
- The `int(...)` conversion of `PredictedSignal` (alpaca_live_trading.py:38): a numeric column holding a fraction is read as floating point, and `int` truncates it toward zero, so 0.7 acts as signal 0 and 1.5 as signal 1. The model takes the already-truncated integer. A cell that is not an integer literal (such as "abc", or "0.7" in a column read as text), or a missing value, raises once its row is reached, after the earlier rows' orders have been submitted; that error path is not modelled.
- The `int(...)` conversion of the position quantity (alpaca_live_trading.py:53): the brokerage reports it as text, and a fractional share quantity would raise in the script. The model takes integers and does not model that error path.
- Credentials, client construction, `get_all_positions` and `submit_order` (alpaca_live_trading.py:10-12, 34, 49, 60): foreign brokerage calls. Positions are an input list and orders are the returned intents. A rejected submission is not modelled: in the script the exception ends `trade_on_signals`, so no later row gets an order, and it escapes the first entry-point call (line 64), so the second run (line 68) never happens.
- The day time-in-force of every order (alpaca_live_trading.py:47, 58): it is the same constant for every order, so `Intent` does not carry it.
- Console output (alpaca_live_trading.py:30, 50, 61).
- The duplicated entry-point blocks (alpaca_live_trading.py:63-68) are represented only by the second-run lemma.
- Convergence.SecondRunIsQuiet: gives both runs the same rows and the same `today`, while the script's second call downloads the CSV and reads the clock again (alpaca_live_trading.py:23-24). It also assumes that no ticker repeats among yesterday's rows and that none of their tickers is held short. Without these assumptions the second run can place orders (`DuplicateTickerOscillates`, `ShortPositionGrows`), although some such inputs still settle (`ConvergesBeyondConditions`).
- Convergence.Fill: assumes every order fills completely before the next run. Partial fills and rejected orders are not modelled.
- Dollar-budget sizing and price lookup: they do not appear in this script. Here every BUY is a fixed 10 shares.

=== FILE: convergence.dfy ===
/**
  What happens when the script runs again after its orders have filled (the
  entry point runs the whole rule twice in one process).  Filling is modelled
  on quantities: a BUY adds its shares, a SELL subtracts them, and a position
  that reaches zero disappears from the brokerage's list.
 */
module Convergence {
  import opened Wrappers
  import opened Signals
  import opened Positions
  import opened Reconcile

  /** The held quantity of `ticker`, zero when it is not held. */
  function HeldQty(held: map<string, int>, ticker: string): (q: int)
  {
    if ticker in held then held[ticker] else 0
  }

  /** The holdings after `x` has filled completely. */
  function Fill(held: map<string, int>, x: Intent): (r: map<string, int>)
    ensures forall t :: t != x.ticker ==> HeldQty(r, t) == HeldQty(held, t) && (t in r <==> t in held)
    ensures x.side == Buy ==> HeldQty(r, x.ticker) == HeldQty(held, x.ticker) + x.qty
    ensures x.side == Sell ==> HeldQty(r, x.ticker) == HeldQty(held, x.ticker) - x.qty
    ensures x.ticker in r <==> HeldQty(r, x.ticker) != 0
  {
    var before := HeldQty(held, x.ticker);
    var after := if x.side == Buy then before + x.qty else before - x.qty;
    if after == 0 then held - {x.ticker} else held[x.ticker := after]
  }

  /** The holdings after every intent of `xs` has filled, in order. */
  function FillAll(held: map<string, int>, xs: seq<Intent>): (r: map<string, int>)
  {
    if |xs| == 0 then held
    else Fill(FillAll(held, xs[..|xs| - 1]), xs[|xs| - 1])
  }

  /** No ticker appears twice among `rows`. */
  predicate DistinctTickers(rows: seq<Row>)
  {
    forall i, j :: 0 <= i < j < |rows| ==> rows[i].ticker != rows[j].ticker
  }

  /** No ticker named by `rows` is held short; other holdings may be anything. */
  predicate NoRowHeldShort(rows: seq<Row>, held: map<string, int>)
  {
    forall k :: 0 <= k < |rows| && rows[k].ticker in held ==> held[rows[k].ticker] >= 0
  }

  /** Filling intents that never name `t` leaves `t`'s holding as it was. */
  lemma {:induction false} FillAllUntouched(held: map<string, int>, xs: seq<Intent>, t: string)
    requires forall k :: 0 <= k < |xs| ==> xs[k].ticker != t
    ensures (t in FillAll(held, xs) <==> t in held) && HeldQty(FillAll(held, xs), t) == HeldQty(held, t)
    decreases |xs|
  {
    if |xs| > 0 {
      FillAllUntouched(held, xs[..|xs| - 1], t);
    }
  }

  /** Filling a concatenation is filling one part after the other. */
  lemma {:induction false} FillAllAppend(held: map<string, int>, a: seq<Intent>, b: seq<Intent>)
    ensures FillAll(held, a + b) == FillAll(FillAll(held, a), b)
    decreases |b|
  {
    if |b| == 0 {
      assert a + b == a;
    } else {
      assert (a + b)[..|a + b| - 1] == a + b[..|b| - 1];
      FillAllAppend(held, a, b[..|b| - 1]);
    }
  }

  /** A row's decision depends on the holdings only through its own ticker. */
  lemma DecideLocal(row: Row, h1: map<string, int>, h2: map<string, int>)
    requires row.ticker in h1 <==> row.ticker in h2
    requires HeldQty(h1, row.ticker) == HeldQty(h2, row.ticker)
    ensures Decide(row, h1) == Decide(row, h2)
  {
  }

  /**
    Once its intent has filled, a row of signal 0 or 1 finds its ticker in the
    state the signal asks for, so the same row decides nothing the next time:
    BUY leaves the ticker held, SELL of a long position leaves it unheld.
   */
  lemma FillSettlesRow(row: Row, held: map<string, int>)
    requires row.ticker in held ==> held[row.ticker] >= 0
    ensures Decide(row, FillAll(held, Decide(row, held).ToSeq())).None?
    ensures Decide(row, held).Some? ==> (row.ticker in FillAll(held, Decide(row, held).ToSeq()) <==> row.signal == 1)
  {
    var mid := Decide(row, held).ToSeq();
    if Decide(row, held).Some? {
      assert mid[..0] == [];
      assert FillAll(held, mid) == Fill(held, mid[0]);
    }
  }

  /** After its own run's intents have filled, row `i` decides nothing. */
  lemma RowSettled(rows: seq<Row>, i: int, held: map<string, int>)
    requires DistinctTickers(rows)
    requires NoRowHeldShort(rows, held)
    requires 0 <= i < |rows|
    ensures Decide(rows[i], FillAll(held, DecideAll(rows, held))).None?
  {
    var t := rows[i].ticker;
    var pre := DecideAll(rows[..i], held);
    var mid := Decide(rows[i], held).ToSeq();
    var post := DecideAll(rows[i + 1..], held);
    DecideAllSplit(rows, i, held);
    IntentsComeFromRows(rows[..i], held);
    IntentsComeFromRows(rows[i + 1..], held);
    forall k | 0 <= k < |pre| ensures pre[k].ticker != t {
      assert pre[k] in pre;
      var j :| 0 <= j < i && Decide(rows[..i][j], held) == Some(pre[k]);
      assert rows[..i][j] == rows[j];
    }
    forall k | 0 <= k < |post| ensures post[k].ticker != t {
      assert post[k] in post;
      var j :| 0 <= j < |rows[i + 1..]| && Decide(rows[i + 1..][j], held) == Some(post[k]);
      assert rows[i + 1..][j] == rows[i + 1 + j];
    }
    var h1 := FillAll(held, pre);
    FillAllUntouched(held, pre, t);
    assert t in h1 ==> h1[t] == HeldQty(h1, t) == HeldQty(held, t) == held[t];
    DecideLocal(rows[i], held, h1);
    FillSettlesRow(rows[i], h1);
    var h2 := FillAll(h1, mid);
    FillAllUntouched(h2, post, t);
    DecideLocal(rows[i], h2, FillAll(h2, post));
    FillAllAppend(held, pre, mid);
    FillAllAppend(held, pre + mid, post);
  }

  /**
    Convergence of the decision pass: when no ticker repeats and none of the
    rows' tickers is held short, re-judging the same rows against the holdings its intents
    produced emits nothing.
   */
  lemma DecideAllConverges(rows: seq<Row>, held: map<string, int>)
    requires DistinctTickers(rows)
    requires NoRowHeldShort(rows, held)
    ensures DecideAll(rows, FillAll(held, DecideAll(rows, held))) == []
  {
    var h2 := FillAll(held, DecideAll(rows, held));
    forall i | 0 <= i < |rows| ensures Decide(rows[i], h2).None? {
      RowSettled(rows, i, held);
    }
    DecideAllEmpty(rows, h2);
  }

  /**
    A second run on the same rows, after the first run's orders have filled,
    stops for lack of rows if the first did, and otherwise emits no order.
   */
  lemma SecondRunIsQuiet(rows: seq<Row>, today: int, positions: seq<Position>, positions2: seq<Position>)
    requires DistinctTickers(FilterDay(rows, Yesterday(today)))
    requires NoRowHeldShort(FilterDay(rows, Yesterday(today)), Snapshot(positions))
    requires TradeOnSignals(rows, today, positions).Orders? ==>
               Snapshot(positions2) == FillAll(Snapshot(positions), TradeOnSignals(rows, today, positions).intents)
    ensures TradeOnSignals(rows, today, positions2) ==
              if TradeOnSignals(rows, today, positions).NoSignals? then TradeOnSignals(rows, today, positions)
              else Orders([])
  {
    var selected := FilterDay(rows, Yesterday(today));
    if |selected| > 0 {
      DecideAllConverges(selected, Snapshot(positions));
    }
  }

  /**
    Without distinct tickers the rule need not settle: a BUY row and a SELL
    row for one unheld ticker buy it on the first run and sell it on the next.
   */
  lemma DuplicateTickerOscillates()
    ensures var rows := [Row("A", 0, 1), Row("A", 0, 0)];
            var first := DecideAll(rows, map[]);
            first == [Intent("A", Buy, BuyShares)] &&
            DecideAll(rows, FillAll(map[], first)) == [Intent("A", Sell, BuyShares)]
  {
    var rows := [Row("A", 0, 1), Row("A", 0, 0)];
    assert rows[..1] == [Row("A", 0, 1)];
    assert rows[..1][..0] == [];
    var first := DecideAll(rows, map[]);
    assert first == [Intent("A", Buy, BuyShares)];
    assert first[..0] == [];
    assert FillAll(map[], first) == map["A" := 10];
  }

  /**
    Without the condition that no row's ticker is held short the rule need not settle: selling the
    absolute quantity of a short position doubles it instead of closing it.
   */
  lemma ShortPositionGrows()
    ensures var rows := [Row("A", 0, 0)];
            var held := map["A" := -5];
            var first := DecideAll(rows, held);
            first == [Intent("A", Sell, 5)] &&
            FillAll(held, first) == map["A" := -10] &&
            DecideAll(rows, FillAll(held, first)) == [Intent("A", Sell, 10)]
  {
    var rows := [Row("A", 0, 0)];
    var held := map["A" := -5];
    assert rows[..0] == [];
    var first := DecideAll(rows, held);
    assert first == [Intent("A", Sell, 5)];
    assert first[..0] == [];
    assert FillAll(held, first) == map["A" := -10];
  }

  /**
    The conditions are sufficient, not necessary: two agreeing rows for one
    ticker buy it twice and then settle, and a short position in a ticker no
    row names does not stop the rule from settling.
   */
  lemma ConvergesBeyondConditions()
    ensures var rows := [Row("A", 0, 1), Row("A", 0, 1)];
            var first := DecideAll(rows, map[]);
            !DistinctTickers(rows) &&
            first == [Intent("A", Buy, BuyShares), Intent("A", Buy, BuyShares)] &&
            FillAll(map[], first) == map["A" := 20] &&
            DecideAll(rows, FillAll(map[], first)) == []
    ensures var rows := [Row("A", 0, 1)];
            var held := map["B" := -5];
            NoRowHeldShort(rows, held) && held["B"] < 0 &&
            DecideAll(rows, FillAll(held, DecideAll(rows, held))) == []
  {
    var rows := [Row("A", 0, 1), Row("A", 0, 1)];
    assert rows[..1] == [Row("A", 0, 1)];
    assert rows[..1][..0] == [];
    var first := DecideAll(rows, map[]);
    assert first == [Intent("A", Buy, BuyShares), Intent("A", Buy, BuyShares)];
    assert first[..1] == [Intent("A", Buy, BuyShares)];
    assert first[..1][..0] == [];
    assert FillAll(map[], first[..1]) == map["A" := 10];
    assert FillAll(map[], first) == map["A" := 20];
    var one := [Row("A", 0, 1)];
    var held := map["B" := -5];
    DecideAllConverges(one, held);
  }
}

=== FILE: positions.dfy ===
/**
  The brokerage's open positions and the lookup table built from them once per
  run: a map from symbol to signed share quantity.
 */
module Positions {

  /** One open position as reported by the brokerage: symbol and signed quantity. */
  datatype Position = Position(symbol: string, qty: int)

  /** The symbols reported in `ps`. */
  function Symbols(ps: seq<Position>): (s: set<string>)
  {
    set i | 0 <= i < |ps| :: ps[i].symbol
  }

  /** True iff no later entry of `ps` reports the same symbol as entry `i`. */
  predicate LastFor(ps: seq<Position>, i: int)
    requires 0 <= i < |ps|
  {
    forall j :: i < j < |ps| ==> ps[j].symbol != ps[i].symbol
  }

  /**
    The lookup table of a dictionary comprehension over `ps`: entries are
    inserted in order, so a later report of a symbol overwrites an earlier one.
   */
  function Snapshot(ps: seq<Position>): (m: map<string, int>)
    ensures |ps| > 0 ==> ps[|ps| - 1].symbol in m && m[ps[|ps| - 1].symbol] == ps[|ps| - 1].qty
  {
    if |ps| == 0 then map[]
    else
      var last := ps[|ps| - 1];
      Snapshot(ps[..|ps| - 1])[last.symbol := last.qty]
  }

  /** The symbols of a list are those of all but its last entry plus the last entry's. */
  lemma SymbolsSnoc(ps: seq<Position>)
    requires |ps| > 0
    ensures Symbols(ps) == Symbols(ps[..|ps| - 1]) + {ps[|ps| - 1].symbol}
  {
    var init := ps[..|ps| - 1];
    forall s | s in Symbols(ps) ensures s in Symbols(init) + {ps[|ps| - 1].symbol} {
      var i :| 0 <= i < |ps| && ps[i].symbol == s;
      if i < |ps| - 1 { assert init[i] == ps[i]; }
    }
    forall s | s in Symbols(init) ensures s in Symbols(ps) {
      var i :| 0 <= i < |init| && init[i].symbol == s;
      assert ps[i] == init[i];
    }
  }

  /**
    The table has a key for exactly the reported symbols, and each key maps to
    the quantity of the last report of that symbol.
   */
  lemma {:induction false} SnapshotLastWins(ps: seq<Position>)
    ensures Snapshot(ps).Keys == Symbols(ps)
    ensures forall i :: 0 <= i < |ps| && LastFor(ps, i) ==> Snapshot(ps)[ps[i].symbol] == ps[i].qty
  {
    if |ps| > 0 {
      var init := ps[..|ps| - 1];
      SnapshotLastWins(init);
      SymbolsSnoc(ps);
      forall i | 0 <= i < |ps| - 1 && LastFor(ps, i)
        ensures Snapshot(ps)[ps[i].symbol] == ps[i].qty
      {
        assert init[i] == ps[i];
        assert LastFor(init, i);
      }
    }
  }
}

=== FILE: reconcile.dfy ===
/**
  The signal-to-order reconciliation rule: select yesterday's signal rows, stop
  when there are none, otherwise judge every selected row, in order, against one
  snapshot of the held positions and emit a BUY, a SELL or nothing.
 */
module Reconcile {
  import opened Wrappers
  import opened Signals
  import opened Positions

  datatype Side = Buy | Sell

  /** A market order to be submitted with day time-in-force. */
  datatype Intent = Intent(ticker: string, side: Side, qty: nat)

  /** The fixed share count of every BUY. */
  const BuyShares: nat := 10

  /** The result of one run: it stopped because no row was dated `day`, or it emitted `intents`. */
  datatype Outcome = NoSignals(day: int) | Orders(intents: seq<Intent>)

  /** The magnitude of a signed quantity: the one of `x` and `-x` that is not negative. */
  function Abs(x: int): (r: nat)
    ensures r == x || r == -x
  {
    if x < 0 then -x else x
  }

  /**
    The decision for one row.  Invested means only "the ticker is a key of the
    snapshot"; the held quantity matters only as the size of a SELL.
   */
  function Decide(row: Row, held: map<string, int>): (r: Option<Intent>)
    ensures r.Some? ==> r.value.ticker == row.ticker
    ensures row.signal == 1 && row.ticker !in held <==> r == Some(Intent(row.ticker, Buy, BuyShares))
    ensures row.signal == 0 && row.ticker in held <==>
              r.Some? && r.value.side == Sell && row.ticker in held && r.value.qty == Abs(held[row.ticker])
    ensures !(row.signal == 1 && row.ticker !in held) && !(row.signal == 0 && row.ticker in held) <==> r.None?
  {
    if row.signal == 1 && row.ticker !in held then
      Some(Intent(row.ticker, Buy, BuyShares))
    else if row.signal == 0 && row.ticker in held then
      Some(Intent(row.ticker, Sell, Abs(held[row.ticker])))
    else
      None
  }

  /** The decisions for `rows`, in row order, every row judged against the same `held`. */
  function DecideAll(rows: seq<Row>, held: map<string, int>): (r: seq<Intent>)
    ensures |r| <= |rows|
  {
    if |rows| == 0 then []
    else DecideAll(rows[..|rows| - 1], held) + Decide(rows[|rows| - 1], held).ToSeq()
  }

  /** One run of the rule on the parsed rows, the run's date and the brokerage's positions. */
  function TradeOnSignals(rows: seq<Row>, today: int, positions: seq<Position>): (o: Outcome)
    ensures o.NoSignals? <==> NoneOnDay(rows, Yesterday(today))
    ensures o.NoSignals? ==> o.day == Yesterday(today)
    ensures o.Orders? ==> |o.intents| <= |FilterDay(rows, Yesterday(today))|
  {
    var day := Yesterday(today);
    var selected := FilterDay(rows, day);
    FilterDayEmpty(rows, day);
    if |selected| == 0 then NoSignals(day)
    else Orders(DecideAll(selected, Snapshot(positions)))
  }

  /**
    Judging a concatenation is concatenating the judgements: the snapshot is
    never updated between rows.
   */
  lemma {:induction false} DecideAllAppend(a: seq<Row>, b: seq<Row>, held: map<string, int>)
    ensures DecideAll(a + b, held) == DecideAll(a, held) + DecideAll(b, held)
    decreases |b|
  {
    if |b| == 0 {
      assert a + b == a;
    } else {
      var b' := b[..|b| - 1];
      var last := Decide(b[|b| - 1], held).ToSeq();
      assert (a + b)[..|a + b| - 1] == a + b';
      assert (a + b)[|a + b| - 1] == b[|b| - 1];
      calc {
        DecideAll(a + b, held);
        DecideAll(a + b', held) + last;
        { DecideAllAppend(a, b', held); }
        DecideAll(a, held) + DecideAll(b', held) + last;
        DecideAll(a, held) + DecideAll(b, held);
      }
    }
  }

  /** Every emitted intent is the decision of one of the rows. */
  lemma {:induction false} IntentsComeFromRows(rows: seq<Row>, held: map<string, int>)
    ensures forall x :: x in DecideAll(rows, held) ==>
              exists i :: 0 <= i < |rows| && Decide(rows[i], held) == Some(x)
    decreases |rows|
  {
    if |rows| > 0 {
      var init := rows[..|rows| - 1];
      IntentsComeFromRows(init, held);
      forall x | x in DecideAll(rows, held)
        ensures exists i :: 0 <= i < |rows| && Decide(rows[i], held) == Some(x)
      {
        if x in DecideAll(init, held) {
          var i :| 0 <= i < |init| && Decide(init[i], held) == Some(x);
          assert rows[i] == init[i];
        } else {
          assert Decide(rows[|rows| - 1], held) == Some(x);
        }
      }
    }
  }

  /** A single row yields exactly its own decision. */
  lemma DecideAllSingle(x: Row, held: map<string, int>)
    ensures DecideAll([x], held) == Decide(x, held).ToSeq()
  {
    assert [x][..0] == [];
  }

  /**
    Row `i` contributes its own decision, at most one intent, between the
    intents of the rows before it and those of the rows after it.
   */
  lemma DecideAllSplit(rows: seq<Row>, i: int, held: map<string, int>)
    requires 0 <= i < |rows|
    ensures DecideAll(rows, held) ==
              DecideAll(rows[..i], held) + Decide(rows[i], held).ToSeq() + DecideAll(rows[i + 1..], held)
  {
    assert rows == rows[..i] + [rows[i]] + rows[i + 1..];
    DecideAllAppend(rows[..i] + [rows[i]], rows[i + 1..], held);
    DecideAllAppend(rows[..i], [rows[i]], held);
    DecideAllSingle(rows[i], held);
  }

  /** A row repeated is judged twice against the same snapshot, so its intent is repeated. */
  lemma DuplicateRowsDuplicateIntents(a: seq<Row>, x: Row, b: seq<Row>, held: map<string, int>)
    ensures DecideAll(a + [x, x] + b, held) ==
              DecideAll(a, held) + Decide(x, held).ToSeq() + Decide(x, held).ToSeq() + DecideAll(b, held)
  {
    var one := Decide(x, held).ToSeq();
    assert DecideAll([x, x], held) == one + one by {
      assert [x, x] == [x] + [x];
      DecideAllAppend([x], [x], held);
      DecideAllSingle(x, held);
    }
    DecideAllAppend(a + [x, x], b, held);
    DecideAllAppend(a, [x, x], held);
  }

  /** When every row's decision is to do nothing, no intent is emitted, and conversely. */
  lemma {:induction false} DecideAllEmpty(rows: seq<Row>, held: map<string, int>)
    ensures DecideAll(rows, held) == [] <==> forall i :: 0 <= i < |rows| ==> Decide(rows[i], held).None?
    decreases |rows|
  {
    if |rows| > 0 {
      var init := rows[..|rows| - 1];
      DecideAllEmpty(init, held);
      assert forall i :: 0 <= i < |init| ==> init[i] == rows[i];
    }
  }

  /**
    A row dated any other day than yesterday never changes the outcome of a
    run, wherever it stands among the rows.
   */
  lemma OtherDaysNeverMatter(a: seq<Row>, x: Row, b: seq<Row>, today: int, positions: seq<Position>)
    requires x.date != Yesterday(today)
    ensures TradeOnSignals(a + [x] + b, today, positions) == TradeOnSignals(a + b, today, positions)
  {
    OtherDaysIgnored(a, x, b, Yesterday(today));
  }

  /**
    When no row is dated yesterday the run stops with no orders, and the
    positions play no part in that outcome.
   */
  lemma NoSignalsIgnoresPositions(rows: seq<Row>, today: int, p1: seq<Position>, p2: seq<Position>)
    requires NoneOnDay(rows, Yesterday(today))
    ensures TradeOnSignals(rows, today, p1) == TradeOnSignals(rows, today, p2) == NoSignals(Yesterday(today))
  {
  }

  /** Row `i` of `rows`, when dated `day`, is among the selected rows. */
  lemma SelectedAt(rows: seq<Row>, i: int, day: int) returns (j: nat)
    requires 0 <= i < |rows| && rows[i].date == day
    ensures j < |FilterDay(rows, day)| && FilterDay(rows, day)[j] == rows[i]
  {
    FilterDayCounts(rows, day);
    assert rows[i] in multiset(rows);
    assert rows[i] in multiset(FilterDay(rows, day));
    var selected := FilterDay(rows, day);
    j :| 0 <= j < |selected| && selected[j] == rows[i];
  }

  /** A row dated yesterday with signal 1 for an unheld ticker puts a BUY of 10 into the run's orders. */
  lemma RunBuysUnheld(rows: seq<Row>, today: int, positions: seq<Position>, i: int)
    requires 0 <= i < |rows|
    requires rows[i].date == Yesterday(today) && rows[i].signal == 1
    requires rows[i].ticker !in Snapshot(positions)
    ensures TradeOnSignals(rows, today, positions).Orders?
    ensures Intent(rows[i].ticker, Buy, BuyShares) in TradeOnSignals(rows, today, positions).intents
  {
    var j := SelectedAt(rows, i, Yesterday(today));
    DecideAllSplit(FilterDay(rows, Yesterday(today)), j, Snapshot(positions));
  }

  /** A row dated yesterday with signal 0 for a held ticker puts a SELL of the whole position into the run's orders. */
  lemma RunSellsHeld(rows: seq<Row>, today: int, positions: seq<Position>, i: int)
    requires 0 <= i < |rows|
    requires rows[i].date == Yesterday(today) && rows[i].signal == 0
    requires rows[i].ticker in Snapshot(positions)
    ensures TradeOnSignals(rows, today, positions).Orders?
    ensures Intent(rows[i].ticker, Sell, Abs(Snapshot(positions)[rows[i].ticker])) in
              TradeOnSignals(rows, today, positions).intents
  {
    var j := SelectedAt(rows, i, Yesterday(today));
    DecideAllSplit(FilterDay(rows, Yesterday(today)), j, Snapshot(positions));
  }

  /** Conversely, every order of a run is the decision of a row dated yesterday against the snapshot. */
  lemma RunIntentsComeFromYesterday(rows: seq<Row>, today: int, positions: seq<Position>)
    ensures TradeOnSignals(rows, today, positions).Orders? ==>
              forall x :: x in TradeOnSignals(rows, today, positions).intents ==>
                exists i :: 0 <= i < |rows| && rows[i].date == Yesterday(today) &&
                            Decide(rows[i], Snapshot(positions)) == Some(x)
  {
    var day := Yesterday(today);
    var selected := FilterDay(rows, day);
    var held := Snapshot(positions);
    if TradeOnSignals(rows, today, positions).Orders? {
      IntentsComeFromRows(selected, held);
      FilterDayCounts(rows, day);
      forall x | x in DecideAll(selected, held)
        ensures exists i :: 0 <= i < |rows| && rows[i].date == day && Decide(rows[i], held) == Some(x)
      {
        var k :| 0 <= k < |selected| && Decide(selected[k], held) == Some(x);
        assert selected[k] in multiset(selected);
        assert selected[k] in multiset(rows);
        var i :| 0 <= i < |rows| && rows[i] == selected[k];
      }
    }
  }

  // Worked runs on day 10, so yesterday is day 9.

  /** A signal-1 row for an unheld ticker buys 10 shares. */
  lemma ScenarioBuy()
    ensures TradeOnSignals([Row("AAPL", 9, 1)], 10, []) == Orders([Intent("AAPL", Buy, 10)])
  {
    var rows := [Row("AAPL", 9, 1)];
    assert rows[..0] == [];
    assert FilterDay(rows, 9) == rows;
  }

  /** A signal-0 row for a held ticker sells the whole position. */
  lemma ScenarioSell()
    ensures TradeOnSignals([Row("AAPL", 9, 0)], 10, [Position("AAPL", 15)]) == Orders([Intent("AAPL", Sell, 15)])
  {
    var rows := [Row("AAPL", 9, 0)];
    assert rows[..0] == [];
    assert FilterDay(rows, 9) == rows;
    var ps := [Position("AAPL", 15)];
    assert ps[..0] == [];
    assert Snapshot(ps) == map["AAPL" := 15];
  }

  /** A signal-1 row for a ticker already held does nothing. */
  lemma ScenarioAlreadyHeld()
    ensures TradeOnSignals([Row("AAPL", 9, 1)], 10, [Position("AAPL", 5)]) == Orders([])
  {
    var rows := [Row("AAPL", 9, 1)];
    assert rows[..0] == [];
    assert FilterDay(rows, 9) == rows;
    var ps := [Position("AAPL", 5)];
    assert ps[..0] == [];
    assert Snapshot(ps) == map["AAPL" := 5];
  }

  /** Rows for another day only make the run stop. */
  lemma ScenarioNoSignals()
    ensures TradeOnSignals([Row("AAPL", 8, 1)], 10, []) == NoSignals(9)
  {
  }

  /** The selection pass: one loop over the rows keeping those dated `day`. */
  method SelectDay(rows: seq<Row>, day: int) returns (selected: seq<Row>)
    ensures selected == FilterDay(rows, day)
  {
    selected := [];
    var i := 0;
    while i < |rows|
      invariant 0 <= i <= |rows|
      invariant selected == FilterDay(rows[..i], day)
    {
      ghost var next := rows[..i + 1];
      assert next[..|next| - 1] == rows[..i] && next[|next| - 1] == rows[i];
      assert FilterDay(next, day) == FilterDay(rows[..i], day) + (if rows[i].date == day then [rows[i]] else []);
      if rows[i].date == day {
        selected := selected + [rows[i]];
      }
      i := i + 1;
    }
    assert rows[..|rows|] == rows;
  }

  /** The lookup table, built by inserting the positions one after another. */
  method BuildSnapshot(positions: seq<Position>) returns (held: map<string, int>)
    ensures held == Snapshot(positions)
  {
    held := map[];
    var j := 0;
    while j < |positions|
      invariant 0 <= j <= |positions|
      invariant held == Snapshot(positions[..j])
    {
      assert positions[..j + 1][..j] == positions[..j];
      held := held[positions[j].symbol := positions[j].qty];
      j := j + 1;
    }
    assert positions[..|positions|] == positions;
  }

  /** The decision pass: one loop over the selected rows appending each row's intent. */
  method DecideRows(selected: seq<Row>, held: map<string, int>) returns (intents: seq<Intent>)
    ensures intents == DecideAll(selected, held)
  {
    intents := [];
    var k := 0;
    while k < |selected|
      invariant 0 <= k <= |selected|
      invariant intents == DecideAll(selected[..k], held)
    {
      assert selected[..k + 1][..k] == selected[..k];
      intents := intents + Decide(selected[k], held).ToSeq();
      k := k + 1;
    }
    assert selected[..|selected|] == selected;
  }

  /**
    The run as the script performs it: select yesterday's rows, stop early
    when there are none, and only then look up the positions and decide.
   */
  method RunTradeOnSignals(rows: seq<Row>, today: int, positions: seq<Position>) returns (o: Outcome)
    ensures o == TradeOnSignals(rows, today, positions)
  {
    var day := Yesterday(today);
    var selected := SelectDay(rows, day);
    if |selected| == 0 {
      return NoSignals(day);
    }
    var held := BuildSnapshot(positions);
    var intents := DecideRows(selected, held);
    o := Orders(intents);
  }
}

=== FILE: signals.dfy ===
/**
  Signal rows as read from the signal CSV (`Ticker`, `Date`, `PredictedSignal`)
  and the selection of the rows dated yesterday.  Calendar dates are day
  ordinals, so the day before `today` is `today - 1`.
 */
module Signals {

  /** One parsed CSV row: the ticker, its date as a day ordinal and the predicted signal. */
  datatype Row = Row(ticker: string, date: int, signal: int)

  /** The day before `today`. */
  function Yesterday(today: int): (day: int)
  {
    today - 1
  }

  /**
    The rows dated `day`, in their original order, duplicates kept: the
    boolean-mask selection of the data frame.
   */
  function FilterDay(rows: seq<Row>, day: int): (r: seq<Row>)
    ensures |r| <= |rows|
    ensures forall k :: 0 <= k < |r| ==> r[k].date == day
  {
    if |rows| == 0 then []
    else
      var last := rows[|rows| - 1];
      FilterDay(rows[..|rows| - 1], day) + (if last.date == day then [last] else [])
  }

  /**
    Each row dated `day` is kept exactly as often as it occurs, duplicates
    included, and no other row is kept.
   */
  lemma {:induction false} FilterDayCounts(rows: seq<Row>, day: int)
    ensures forall x :: multiset(FilterDay(rows, day))[x] == if x.date == day then multiset(rows)[x] else 0
    decreases |rows|
  {
    if |rows| > 0 {
      var init := rows[..|rows| - 1];
      var last := rows[|rows| - 1];
      assert rows == init + [last];
      FilterDayCounts(init, day);
    }
  }

  /** True iff no row is dated `day`. */
  predicate NoneOnDay(rows: seq<Row>, day: int)
  {
    forall i :: 0 <= i < |rows| ==> rows[i].date != day
  }

  /** Selecting from a concatenation is concatenating the selections: the filter keeps row order. */
  lemma {:induction false} FilterDayAppend(a: seq<Row>, b: seq<Row>, day: int)
    ensures FilterDay(a + b, day) == FilterDay(a, day) + FilterDay(b, day)
    decreases |b|
  {
    if |b| == 0 {
      assert a + b == a;
    } else {
      var b' := b[..|b| - 1];
      var last := b[|b| - 1];
      assert (a + b)[..|a + b| - 1] == a + b';
      FilterDayAppend(a, b', day);
    }
  }

  /** A row dated any other day never changes the selection, wherever it stands. */
  lemma OtherDaysIgnored(a: seq<Row>, x: Row, b: seq<Row>, day: int)
    requires x.date != day
    ensures FilterDay(a + [x] + b, day) == FilterDay(a + b, day)
  {
    assert FilterDay([x], day) == [] by {
      assert [x][..0] == [];
    }
    calc {
      FilterDay(a + [x] + b, day);
      { FilterDayAppend(a + [x], b, day); }
      FilterDay(a + [x], day) + FilterDay(b, day);
      { FilterDayAppend(a, [x], day); }
      FilterDay(a, day) + FilterDay([x], day) + FilterDay(b, day);
      FilterDay(a, day) + FilterDay(b, day);
      { FilterDayAppend(a, b, day); }
      FilterDay(a + b, day);
    }
  }

  /** The selection is empty exactly when no row is dated `day`. */
  lemma FilterDayEmpty(rows: seq<Row>, day: int)
    ensures |FilterDay(rows, day)| == 0 <==> NoneOnDay(rows, day)
  {
    var r := FilterDay(rows, day);
    FilterDayCounts(rows, day);
    if |r| == 0 {
      forall i | 0 <= i < |rows|
        ensures rows[i].date != day
      {
        assert rows[i] in multiset(rows);
      }
    } else {
      assert r[0] in multiset(r);
      assert r[0] in multiset(rows);
      var i :| 0 <= i < |rows| && rows[i] == r[0];
    }
  }
}

=== FILE: wrappers.dfy ===
/** The optional value used for "this row yields an order, or it yields nothing". */
module Wrappers {

  datatype Option<+T> = None | Some(value: T) {

    /** The zero- or one-element sequence holding the value, if any. */
    function ToSeq(): (s: seq<T>)
      ensures |s| <= 1
      ensures Some? <==> |s| == 1
      ensures Some? ==> s[0] == value
    {
      match this
      case Some(v) => [v]
      case None => []
    }
  }
}
